=== FILE: README.md ===
# Kimai API client core, modelled in Dafny

This project models the decision logic of the `kimai` command-line client
(`src/lib.rs`): the client for the Kimai time-tracking server. It covers:

- how query parameters are encoded, and how the `query!` macro builds them;
- how the host, user and secret are resolved from the configuration file
  and the `pass` secret store;
- how authenticated GET and POST requests are shaped;
- how a reply is classified as success or API error;
- the closed `KimaiError` union, its rendering and its conversions;
- the date and duration logic that every command uses.

Each part is a Dafny module:

| module | file | models |
|---|---|---|
| `Wrappers` | wrappers.dfy | `Option`, `Result` |
| `Text` | text.dfy | `usize::to_string`, `join`, `split`, `str::trim` |
| `KimaiErrors` | errors.dfy | `KimaiError`, its `Display` and `From` impls |
| `Query` | query.dfy | `QueryValue::process`, `query!`, each endpoint's parameter list |
| `Credentials` | credentials.dfy | `ConfigFile`, `Config`, `from_path`, `from_xdg`, `load_config` |
| `Dates` | dates.dfy | the duration column, `str_to_datetime`, `get_datetime` |
| `Domain` | domain.dfy | the entities and the outbound `NewTimesheetRecord` |
| `Client` | client.dfy | `get_headers`, `check_response`, `make_get_request`, `make_post_request`, the `get_*` endpoints, `begin_timesheet_record` |

The client depends on the outside world in several places. Each one is a
parameter of the model:

- **Credentials.** An `Env` value supplies reading and TOML-parsing the file,
  running `pass`, `std::str::from_utf8` and the XDG lookup.
- **Dates.** A `DateEnv` value supplies the two chrono format parsers, today's
  local date and local-zone resolution. `GetDateTime` receives the clock
  reading as an argument.
- **Client.** The caller supplies sending a request and decoding a JSON body,
  as functions.

`query!` builds a map one insert at a time, `get_headers` fills a header map,
request builders are reassigned and `get_datetime` reassigns `now`. These are
methods: `BuildQuery`, `GetHeaders`, `MakeGetRequest`/`MakePostRequest` and
`GetDateTime`. `BuildQuery`'s loop is proved against the function `Query`.
The endpoint functions (`GetCustomers` and the others) are methods too,
because they call the request builders. The remaining operations compute a
value and are functions.

In a few places the code behaves differently from what a reader might expect.
The model follows the code:

- One might expect an id list that is given but empty to be left out of the
  query. The code sends it, as the empty string.
- One might expect a non-zero exit of `pass` to be an error. The code never
  checks the exit status. Only a failure to start `pass` is an I/O error, so a
  failed lookup that prints nothing yields an empty secret
  (`Credentials.ExitStatusIgnored`).
- One might expect an error naming both date formats when neither parses.
  The code returns `ChronoParse` carrying only the time-only parser's message.
- Header values the HTTP library refuses make the source panic through
  `unwrap`; they are not an error value. The model states this as a
  precondition (`Client.ValidCredentials`).

## Model

| member | source | states |
|---|---|---|
| `Text.NatToString` | src/lib.rs:40-44 | a `usize` renders as a canonical decimal numeral: digits only, no leading zero |
| `Text.ParseNatToString` | src/lib.rs:40-44 | reading the decimal rendering back gives the number |
| `Text.NatToStringParse` | src/lib.rs:40-44 | rendering is also onto: every canonical numeral is the rendering of its value |
| `Text.SplitJoin` | src/lib.rs:19-25 | joining pieces that have no separator, then splitting, gives the pieces back in order |
| `Text.JoinSplit` | src/lib.rs:19-25 | the reference split is lossless: joining its pieces restores the string |
| `Text.Trim` | src/lib.rs:164 | the trimmed secret is a slice of the output with only whitespace before and after it, and it neither starts nor ends with whitespace |
| `Text.TrimIdempotent` | src/lib.rs:164 | trimming twice is trimming once |
| `Text.IntToString` | src/lib.rs:486 | an `i64` renders as a canonical numeral that reads back as the number; a negative one is "-" followed by the numeral of its magnitude, with a non-zero leading digit |
| `Text.Join` | src/lib.rs:19-25 | joining nothing gives ""; otherwise the text starts with the first piece and is at least as long as that piece plus one separator per further piece (its round trips with `Split` are `SplitJoin` and `JoinSplit`) |
| `Query.Process` | src/lib.rs:15-44 | a number renders as a canonical numeral, a string as itself, an empty id list as "" and a single id as its numeral |
| `Query.Inserted` | src/lib.rs:46-51 | a size bound only: the map has no more keys than the list has parameters. The fold's meaning, its exact keys and values, is stated by `InsertedKeys` and `InsertedValue` |
| `Query.Query` | src/lib.rs:46-58 | the result is `None` exactly when the built map is empty, otherwise `Some` of that non-empty map |
| `Query.IdsRoundTrip` | src/lib.rs:19-26 | a non-empty id list, encoded then split on "," and parsed, gives the list in its original order |
| `Query.EmptyIds` | src/lib.rs:19-25 | an empty id list encodes to "" |
| `Query.ScalarRoundTrip` | src/lib.rs:40-44 | a scalar parameter is a canonical decimal that parses back to the number |
| `Query.InsertedKeys` | src/lib.rs:48-51 | the built map's keys are exactly the keys whose value is `Some` |
| `Query.InsertedValue` | src/lib.rs:49-51 | a given key not overridden later maps to `process` of its value |
| `Query.QueryNone` | src/lib.rs:52-56 | the result is `None` exactly when every value is `None`, and never `Some` of an empty map |
| `Query.QueryDistinct` | src/lib.rs:46-58 | with distinct keys, every given parameter is present with its rendering, and nothing else is |
| `Query.BuildQuery` | src/lib.rs:46-58 | the insert loop yields `Query(params)`: `None` iff nothing is given, otherwise a non-empty map keyed by exactly the given keys |
| `Query.GivenByEntries` | src/lib.rs:49-51 | a key is given by a list exactly when its first entry or the rest of the list gives it |
| `Query.CustomerQuery` | src/lib.rs:269 | the customers query is `{term}` when a term is given, otherwise none |
| `Query.TwoEntryQuery` | src/lib.rs:46-58 | a two-parameter query holds exactly the given parameters, with their renderings |
| `Query.ProjectQuery` | src/lib.rs:311 | the projects query holds exactly the given `customers` (comma-joined ids) and `term` |
| `Query.ActivityQuery` | src/lib.rs:361 | the activities query holds exactly the given `projects` (comma-joined ids) and `term` |
| `Query.TimesheetQuery` | src/lib.rs:444-449 | the timesheets query holds exactly the given `user`, `customers`, `projects`, `activities` |
| `KimaiErrors.Prefix` | src/lib.rs:77-87 | bounds only: every label is 7 to 27 characters long, and only `Other` has the bare label "Error: ". That the labels tell the kinds apart is `PrefixesDiffer` |
| `KimaiErrors.Display` | src/lib.rs:75-89 | the text is the kind's label followed by the message, unchanged |
| `KimaiErrors.PrefixesDiffer` | src/lib.rs:77-87 | the nine display labels differ already in their first two characters |
| `KimaiErrors.DisplayInjective` | src/lib.rs:75-89 | no two distinct errors display the same text, so the rendering determines kind and message |
| `KimaiErrors.FromForeign` | src/lib.rs:91-125 | each foreign error converts to its own variant (XDG to `XdgBaseDirectories`, I/O to `IO`, TOML to `Toml`, UTF-8 to `Utf8`, reqwest to `Reqwest`, chrono to `ChronoParse`) with its text as message, never to `Config`, `Api` or `Other` |
| `KimaiErrors.FromForeignInjective` | src/lib.rs:91-125 | distinct foreign errors convert to distinct errors |
| `Credentials.FromConfigFile` | src/lib.rs:153-170 | on success host and user are copied unchanged; the only failures are the missing-password configuration error, an I/O error or a UTF-8 error; a `pass` that cannot be started gives `IO` with its message, and that is the only source of `IO` |
| `Credentials.FromPath` | src/lib.rs:150-152 | a read failure is an `IO` error and a parse failure a `Toml` error, each with the library's message; a parsed file is resolved by `from_config_file` |
| `Credentials.FromXdg` | src/lib.rs:173-179 | a base-directory failure is an `XdgBaseDirectories` error; a missing file is `Config("config file not found!")` |
| `Credentials.PasswordWins` | src/lib.rs:153-158 | a `password` in the file is the secret verbatim, even with `pass_path` set, and `pass` is not consulted |
| `Credentials.PassPathSecret` | src/lib.rs:159-165 | with only `pass_path`, the secret is the trimmed, decoded output of `pass`; undecodable output is a `Utf8` error |
| `Credentials.ExitStatusIgnored` | src/lib.rs:160-165 | a lookup that exits with any status and prints nothing yields an empty secret, not an error |
| `Credentials.NoSecret` | src/lib.rs:166-170 | with neither field, resolution fails with `Config("No password give in config!")` |
| `Credentials.LoadConfig` | src/lib.rs:250-255 | an explicit path is resolved by `from_path`, otherwise by `from_xdg`; an XDG failure can only happen without a path |
| `Credentials.LoadConfigDispatch` | src/lib.rs:250-255 | an explicit path never consults the XDG lookup; otherwise the found path is resolved as if it had been given |
| `Client.GetHeaders` | src/lib.rs:182-193 | the headers are exactly `x-auth-user` = user and `x-auth-token` = secret |
| `Client.IsSuccess` | src/lib.rs:196 | a status is a success exactly when it is in the 2xx class |
| `Client.CheckResponse` | src/lib.rs:195-201 | the reply passes unchanged iff its status is 2xx, otherwise `Api(body)` with the body verbatim |
| `Client.CheckResponseExamples` | src/lib.rs:195-201 | 404 "not found" is `Api("not found")`; a 201 passes through |
| `Client.Complete` | src/lib.rs:219-222 | success iff the reply is 2xx and the body decodes; an API error iff the status is not 2xx; a transport failure and a decode failure are each `Reqwest` carrying that library's message |
| `Client.MakeGetRequest` | src/lib.rs:203-223 | a GET to `host + "/" + endpoint` with both auth headers, no body, and the query exactly when the parameters are `Some` |
| `Client.MakePostRequest` | src/lib.rs:225-248 | a POST to `host + "/" + endpoint` with the record as JSON body, both auth headers, and the query exactly when the parameters are `Some` |
| `Client.GetCustomers` | src/lib.rs:265-270 | GET `host/api/customers` with both auth headers and query `{term}` when a term is given, otherwise none |
| `Client.GetProjects` | src/lib.rs:303-314 | GET `host/api/projects` with both auth headers, carrying exactly the given `customers` and `term` |
| `Client.GetActivities` | src/lib.rs:353-364 | GET `host/api/activities` with both auth headers, carrying exactly the given `projects` and `term` |
| `Client.GetTimesheet` | src/lib.rs:433-452 | GET `host/api/timesheets` with both auth headers, carrying exactly the given `user`, `customers`, `projects`, `activities` |
| `Client.GetCurrentUser` | src/lib.rs:568-570 | GET `host/api/users/me` with both auth headers and no query |
| `Client.BeginTimesheetRecord` | src/lib.rs:544-566 | POST to `host/api/timesheets` with both auth headers, no query, body the new record with the begin time as its local wall-clock reading |
| `Domain.NewRecord` | src/lib.rs:554-564 | project, activity and description are copied; begin is the local reading; tags are present iff given, and then are the given tags joined by "," |
| `Domain.TagsRoundTrip` | src/lib.rs:563 | tags without commas are joined by "," and split back to the same tags in order |
| `Domain.TagsAmbiguous` | src/lib.rs:563 | the join is unescaped: `["a,b"]` and `["a","b"]` give the same record, and so do `[]` and `[""]` |
| `Dates.NaiveLocal` | src/lib.rs:557 | the local wall-clock reading is the instant shifted by the zone's offset, nanoseconds unchanged |
| `Dates.TruncDiv` | src/lib.rs:485-486 | Rust's `/` truncates toward zero: Euclidean `/` for a non-negative dividend, the negated quotient of the magnitude otherwise |
| `Dates.TruncRem` | src/lib.rs:486 | Rust's `%` by a positive divisor b: the remainder lies strictly between -b and b, matches Euclidean `%` for a non-negative dividend and is the negated remainder of the magnitude otherwise |
| `Dates.Pad2` | src/lib.rs:486 | `{:02}` gives at least two characters: a sign and the numeral of the magnitude when negative, otherwise digits only, which are the plain numeral once it has more than two |
| `Dates.FormatDuration` | src/lib.rs:485-486 | for a non-negative duration the text is whole hours, ":", padded minutes within the hour; for a negative one each field is its value truncated toward zero, printed with its own sign, which is absent when that field is zero ("0:-1" for -90 s, "-1:00" for -3600 s) |
| `Dates.Pad2Digits` | src/lib.rs:486 | `{:02}` of a minute count 0..59 is exactly two digits that read back as that count |
| `Dates.SplitAtColon` | src/lib.rs:486 | the hours and minutes fields are separated by the only ":" of the text |
| `Dates.DurationFields` | src/lib.rs:485-486 | for non-negative seconds the text is `str(s/3600) ":" pad2((s/60)%60)`; the minutes are two digits in 00..59, hours are not capped, and the fields read back to the duration less its leftover seconds |
| `Dates.DurationArithmetic` | src/lib.rs:485-486 | hours, minutes and leftover seconds add back up to the duration |
| `Dates.DurationExample5400` | src/lib.rs:485-486 | 5400 s prints as "1:30" |
| `Dates.DurationExample3700` | src/lib.rs:485-486 | 3700 s prints as "1:01" |
| `Dates.DurationExample61` | src/lib.rs:485-486 | 61 s prints as "0:01" |
| `Dates.DurationExample90000` | src/lib.rs:485-486 | 90000 s prints as "25:00": hours are not capped at 24 |
| `Dates.NegativeDurationExample` | src/lib.rs:485-486 | with truncating division a negative duration of 90 s prints "0:-1" |
| `Dates.NegativeHourExample` | src/lib.rs:485-486 | minus one hour prints "-1:00": the sign goes on the hours field and the minutes stay "00" |
| `Dates.StrToDateTime` | src/lib.rs:503-511 | fails iff both formats fail to parse, and then with `ChronoParse` of the time-only parser's error; on success the result is the local-zone resolution of the full-format reading, or else of the parsed time on today's date |
| `Dates.FullFormatFirst` | src/lib.rs:504-505 | whenever the full format parses, its result is taken regardless of the time-only parser and today's date, and it reads as the parsed date and time |
| `Dates.TimeOnlyFallback` | src/lib.rs:506-507 | when only the time parses, the result reads as that time on today's date |
| `Dates.FirstErrorDiscarded` | src/lib.rs:506-508 | the full-format parser's error never reaches the caller; the error shown is "Chrono Parser Error: " plus the second parser's message |
| `Dates.SubtractNanos` | src/lib.rs:577 | subtracting n nanoseconds moves the instant back by exactly n, normalised, in the same zone |
| `Dates.GetDateTime` | src/lib.rs:572-581 | with a string it equals `str_to_datetime`; without one it is the clock's reading with zero nanoseconds, the same whole seconds and zone |

## Left out

- HTTP transport is a parameter `send` of the request methods. This covers `reqwest`, connection handling and timeouts.
- `Client::builder().build()` can fail with a `Reqwest` error (for example, when the TLS backend does not start). That failure is not modelled.
- `Client.CheckResponse`: reading the body text of a non-2xx reply can fail with a `Reqwest` error. The model treats the body as text that is already available.
- Turning the query map into a URL query string (`serde_urlencoded`) is not modelled. A request carries the map itself.
- JSON serialization of the POST body and JSON decoding of replies (serde) are not modelled. The POST body is the record value, and decoding is a parameter `decode`.
- `async` and `#[tokio::main]` are left out. The model is sequential, as the client's flow is.
- All `print_*` functions and `TimesheetRecord::print_table` are terminal output and are left out. Only the duration arithmetic at src/lib.rs:485-486 is kept.
- Reading the file (`fs::read_to_string`), running `pass` and the XDG base-directory search are file-system and process I/O. They are fields of the `Env` parameter.
- TOML parsing and `std::str::from_utf8` are pure decoders from third-party crates. Their grammars are not modelled; they are fields of the `Env` parameter too.
- The grammar of chrono's `"%Y-%m-%d %H:%M"` and `"%H:%M"` parsers is not modelled, nor the calendar or time-zone rules. The parsers, today's date and local-zone resolution are fields of the `DateEnv` parameter, and the clock reading is an argument.
- `Dates.StrToDateTime`: a wall-clock time in a DST gap or overlap makes the source panic (`unwrap`). The model excludes that input with the precondition `Resolvable` and does not model the panic.
- `Dates.GetDateTime`: a clock reading inside a leap second (chrono nanoseconds of 1e9 or more) is excluded by a precondition. Chrono's leap-second arithmetic is not modelled.
- `Dates.FormatDuration` requires the duration to fit in a `chrono::Duration` (at most i64::MAX milliseconds either way). Outside that range the source panics.
- `usize` ids and counts are unbounded `nat` in the model. Ids come from the command line and the server, and none of the modelled operations does arithmetic on them.
- `TimesheetRecord.duration` is an `i64` decoded from the server's JSON (src/lib.rs:402). The model has an unbounded `int`. Its only bound that matters is the `chrono::Duration` range, which is the precondition of `Dates.FormatDuration`.
- `Config::new` only stores its three arguments and is not modelled separately.
- `begin_timesheet_record` accepts a user id and never sends it. The model takes it and ignores it too.
- src/main.rs (argument definitions, validators, subcommand dispatch) is not part of this model.

=== FILE: client.dfy ===
/** The authenticated client: the two authentication headers, the shaping of GET
    and POST requests against `host/endpoint`, the classification of the reply,
    and the endpoints built on them. Sending a request and decoding a JSON body
    are supplied by the caller as functions. */
module Client {
  import opened Wrappers
  import opened KimaiErrors
  import opened Query
  import opened Credentials
  import opened Dates
  import opened Domain

  const AuthUser := "x-auth-user"
  const AuthToken := "x-auth-token"

  datatype Verb = Get | Post

  /** No body, or a record sent as JSON (with a JSON content type). */
  datatype Body = NoBody | Json(record: NewTimesheetRecord)

  datatype Request = Request(verb: Verb, url: string, headers: map<string, string>,
                             body: Body, query: Option<map<string, string>>)

  datatype Response = Response(status: nat, body: string)

  /** What `HeaderValue::from_str` accepts: every byte visible, a tab, or part of a
      non-ASCII character; control characters and DEL are refused. */
  predicate ValidHeaderValue(s: string) {
    forall i :: 0 <= i < |s| ==> s[i] == '\t' || (32 <= s[i] as int && s[i] as int != 127)
  }

  /** The source unwraps both header values, so credentials it cannot send make it panic. */
  predicate ValidCredentials(config: Config) {
    ValidHeaderValue(config.user) && ValidHeaderValue(config.password)
  }

  /** `get_headers`: exactly the two authentication headers, the user name and the secret. */
  method GetHeaders(config: Config) returns (headers: map<string, string>)
    requires ValidCredentials(config)
    ensures headers.Keys == {AuthUser, AuthToken}
    ensures headers[AuthUser] == config.user && headers[AuthToken] == config.password
  {
    headers := map[];
    headers := headers[AuthUser := config.user];
    headers := headers[AuthToken := config.password];
  }

  /** `StatusCode::is_success`. */
  predicate IsSuccess(status: nat): (b: bool)
    ensures b <==> status / 100 == 2
  {
    200 <= status <= 299
  }

  /** `check_response`: a 2xx reply passes through untouched, any other becomes an
      API error carrying the body text verbatim. */
  function CheckResponse(response: Response): (r: Result<Response, KimaiError>)
    ensures r.Ok? <==> IsSuccess(response.status)
    ensures r.Ok? ==> r.value == response
    ensures r.Err? ==> r.error == Api(response.body) && Display(r.error) == "API Error: " + response.body
  {
    if IsSuccess(response.status) then Ok(response) else Err(Api(response.body))
  }

  /** Worked examples: a 404 is an API error with the body as message, a 201 passes. */
  lemma CheckResponseExamples()
    ensures CheckResponse(Response(404, "not found")) == Err(Api("not found"))
    ensures CheckResponse(Response(201, "{}")) == Ok(Response(201, "{}"))
  {
  }

  /** The rest of one exchange once the request is sent: a transport failure, the
      status check, then decoding of the body; each failure is the matching error. */
  function Complete<T>(sent: Result<Response, string>, decode: string -> Result<T, string>)
    : (r: Result<T, KimaiError>)
    ensures r.Ok? <==> sent.Ok? && IsSuccess(sent.value.status) && decode(sent.value.body).Ok?
    ensures r.Ok? ==> r.value == decode(sent.value.body).value
    ensures r.Err? && r.error.Api? <==> sent.Ok? && !IsSuccess(sent.value.status)
    ensures sent.Ok? && !IsSuccess(sent.value.status) ==> r == Err(Api(sent.value.body))
    ensures r.Err? ==> r.error.Api? || r.error.Reqwest?
    ensures sent.Err? ==> r == Err(Reqwest(sent.error))
    ensures sent.Ok? && IsSuccess(sent.value.status) && decode(sent.value.body).Err? ==>
      r == Err(Reqwest(decode(sent.value.body).error))
  {
    match sent
    case Err(e) => Err(FromForeign(ReqwestError(e)))
    case Ok(response) =>
      match CheckResponse(response)
      case Err(e) => Err(e)
      case Ok(passed) =>
        match decode(passed.body)
        case Ok(v) => Ok(v)
        case Err(e) => Err(FromForeign(ReqwestError(e)))
  }

  /** `make_get_request`: GET `host/endpoint` with the authentication headers and the
      query only when there is one. */
  method MakeGetRequest<T>(config: Config, endpoint: string, parameters: Option<map<string, string>>,
                           send: Request -> Result<Response, string>, decode: string -> Result<T, string>)
    returns (req: Request, r: Result<T, KimaiError>)
    requires ValidCredentials(config)
    ensures req.verb == Get && req.url == config.host + "/" + endpoint && req.body == NoBody
    ensures req.headers.Keys == {AuthUser, AuthToken}
    ensures req.headers[AuthUser] == config.user && req.headers[AuthToken] == config.password
    ensures req.query == parameters
    ensures r == Complete(send(req), decode)
  {
    var url := config.host + "/" + endpoint;
    var headers := GetHeaders(config);
    var builder := Request(Get, url, headers, NoBody, None);
    if parameters.Some? {
      builder := builder.(query := parameters);
    }
    req := builder;
    r := Complete(send(req), decode);
  }

  /** `make_post_request`: POST `host/endpoint` with the record as JSON body, the
      authentication headers and the query only when there is one. */
  method MakePostRequest<T>(config: Config, endpoint: string, body: NewTimesheetRecord,
                            parameters: Option<map<string, string>>,
                            send: Request -> Result<Response, string>, decode: string -> Result<T, string>)
    returns (req: Request, r: Result<T, KimaiError>)
    requires ValidCredentials(config)
    ensures req.verb == Post && req.url == config.host + "/" + endpoint && req.body == Json(body)
    ensures req.headers.Keys == {AuthUser, AuthToken}
    ensures req.headers[AuthUser] == config.user && req.headers[AuthToken] == config.password
    ensures req.query == parameters
    ensures r == Complete(send(req), decode)
  {
    var url := config.host + "/" + endpoint;
    var headers := GetHeaders(config);
    var builder := Request(Post, url, headers, Json(body), None);
    if parameters.Some? {
      builder := builder.(query := parameters);
    }
    req := builder;
    r := Complete(send(req), decode);
  }

  /** `get_customers`: GET api/customers, with `term` the only possible parameter. */
  method GetCustomers(config: Config, term: Option<string>,
                      send: Request -> Result<Response, string>,
                      decode: string -> Result<seq<Customer>, string>)
    returns (req: Request, r: Result<seq<Customer>, KimaiError>)
    requires ValidCredentials(config)
    ensures req.verb == Get && req.url == config.host + "/api/customers"
    ensures req.headers.Keys == {AuthUser, AuthToken}
    ensures req.headers[AuthUser] == config.user && req.headers[AuthToken] == config.password
    ensures req.query == if term.Some? then Some(map["term" := term.value]) else None
    ensures r == Complete(send(req), decode)
  {
    var params := CustomerParams(term);
    var q := BuildQuery(params);
    CustomerQuery(term);
    req, r := MakeGetRequest(config, "api/customers", q, send, decode);
  }

  /** `get_projects`: GET api/projects, filtered by customer ids and `term` when given. */
  method GetProjects(config: Config, customers: Option<seq<nat>>, term: Option<string>,
                     send: Request -> Result<Response, string>,
                     decode: string -> Result<seq<Project>, string>)
    returns (req: Request, r: Result<seq<Project>, KimaiError>)
    requires ValidCredentials(config)
    ensures req.verb == Get && req.url == config.host + "/api/projects"
    ensures req.headers.Keys == {AuthUser, AuthToken}
    ensures req.headers[AuthUser] == config.user && req.headers[AuthToken] == config.password
    ensures req.query.Some? <==> customers.Some? || term.Some?
    ensures req.query.Some? ==> forall k :: k in req.query.value <==>
      (k == "customers" && customers.Some?) || (k == "term" && term.Some?)
    ensures customers.Some? ==> req.query.Some? && req.query.value["customers"] == Process(Ids(customers.value))
    ensures term.Some? ==> req.query.Some? && req.query.value["term"] == term.value
    ensures r == Complete(send(req), decode)
  {
    var q := BuildQuery(ProjectParams(customers, term));
    ProjectQuery(customers, term);
    req, r := MakeGetRequest(config, "api/projects", q, send, decode);
  }

  /** `get_activities`: GET api/activities, filtered by project ids and `term` when given. */
  method GetActivities(config: Config, projects: Option<seq<nat>>, term: Option<string>,
                       send: Request -> Result<Response, string>,
                       decode: string -> Result<seq<Activity>, string>)
    returns (req: Request, r: Result<seq<Activity>, KimaiError>)
    requires ValidCredentials(config)
    ensures req.verb == Get && req.url == config.host + "/api/activities"
    ensures req.headers.Keys == {AuthUser, AuthToken}
    ensures req.headers[AuthUser] == config.user && req.headers[AuthToken] == config.password
    ensures req.query.Some? <==> projects.Some? || term.Some?
    ensures req.query.Some? ==> forall k :: k in req.query.value <==>
      (k == "projects" && projects.Some?) || (k == "term" && term.Some?)
    ensures projects.Some? ==> req.query.Some? && req.query.value["projects"] == Process(Ids(projects.value))
    ensures term.Some? ==> req.query.Some? && req.query.value["term"] == term.value
    ensures r == Complete(send(req), decode)
  {
    var q := BuildQuery(ActivityParams(projects, term));
    ActivityQuery(projects, term);
    req, r := MakeGetRequest(config, "api/activities", q, send, decode);
  }

  /** `get_timesheet`: GET api/timesheets, filtered by user, customer, project and
      activity ids when given. */
  method GetTimesheet(config: Config, user: Option<nat>, customers: Option<seq<nat>>,
                      projects: Option<seq<nat>>, activities: Option<seq<nat>>,
                      send: Request -> Result<Response, string>,
                      decode: string -> Result<seq<TimesheetRecord>, string>)
    returns (req: Request, r: Result<seq<TimesheetRecord>, KimaiError>)
    requires ValidCredentials(config)
    ensures req.verb == Get && req.url == config.host + "/api/timesheets"
    ensures req.headers.Keys == {AuthUser, AuthToken}
    ensures req.headers[AuthUser] == config.user && req.headers[AuthToken] == config.password
    ensures req.query.Some? <==> user.Some? || customers.Some? || projects.Some? || activities.Some?
    ensures req.query.Some? ==> forall k :: k in req.query.value <==>
      (k == "user" && user.Some?) || (k == "customers" && customers.Some?) ||
      (k == "projects" && projects.Some?) || (k == "activities" && activities.Some?)
    ensures user.Some? ==> req.query.Some? && req.query.value["user"] == Process(Scalar(user.value))
    ensures customers.Some? ==> req.query.Some? && req.query.value["customers"] == Process(Ids(customers.value))
    ensures projects.Some? ==> req.query.Some? && req.query.value["projects"] == Process(Ids(projects.value))
    ensures activities.Some? ==> req.query.Some? && req.query.value["activities"] == Process(Ids(activities.value))
    ensures r == Complete(send(req), decode)
  {
    var q := BuildQuery(TimesheetParams(user, customers, projects, activities));
    TimesheetQuery(user, customers, projects, activities);
    req, r := MakeGetRequest(config, "api/timesheets", q, send, decode);
  }

  /** `get_current_user`: GET api/users/me with no parameters. */
  method GetCurrentUser(config: Config, send: Request -> Result<Response, string>,
                        decode: string -> Result<User, string>)
    returns (req: Request, r: Result<User, KimaiError>)
    requires ValidCredentials(config)
    ensures req.verb == Get && req.url == config.host + "/api/users/me" && req.query.None?
    ensures req.headers.Keys == {AuthUser, AuthToken}
    ensures req.headers[AuthUser] == config.user && req.headers[AuthToken] == config.password
    ensures r == Complete(send(req), decode)
  {
    req, r := MakeGetRequest(config, "api/users/me", None, send, decode);
  }

  /** `begin_timesheet_record`: POST the new record to api/timesheets with no query.
      The user argument is accepted and not sent. */
  method BeginTimesheetRecord(config: Config, user: nat, project: nat, activity: nat,
                              begin: DateTime, description: Option<string>, tags: Option<seq<string>>,
                              send: Request -> Result<Response, string>,
                              decode: string -> Result<TimesheetRecord, string>)
    returns (req: Request, r: Result<TimesheetRecord, KimaiError>)
    requires ValidCredentials(config)
    ensures req.verb == Post && req.url == config.host + "/api/timesheets" && req.query.None?
    ensures req.body == Json(NewRecord(project, activity, begin, description, tags))
    ensures req.body.record.begin == NaiveLocal(begin)
    ensures req.headers.Keys == {AuthUser, AuthToken}
    ensures req.headers[AuthUser] == config.user && req.headers[AuthToken] == config.password
    ensures r == Complete(send(req), decode)
  {
    var record := NewRecord(project, activity, begin, description, tags);
    req, r := MakePostRequest(config, "api/timesheets", record, None, send, decode);
  }
}

=== FILE: credentials.dfy ===
/** Credential resolution: from the decoded configuration file, and possibly a
    run of the `pass` secret store, to the host, user and secret the client uses.
    Everything the resolver asks of the outside world (reading the file, parsing
    it as TOML, running `pass`, decoding its output as UTF-8, the XDG lookup)
    comes in through an `Env` value. */
module Credentials {
  import opened Wrappers
  import opened Text
  import opened KimaiErrors

  /** The configuration file's fields; `password` and `pass_path` are both optional. */
  datatype ConfigFile = ConfigFile(host: string, user: string,
                                   password: Option<string>, passPath: Option<string>)

  /** The resolved credentials. */
  datatype Config = Config(host: string, user: string, password: string)

  /** Reading and parsing the file at a path: an I/O failure, a TOML failure, or the record. */
  datatype ConfigSource = ReadFailed(ioText: string) | TomlFailed(tomlText: string) | Parsed(file: ConfigFile)

  /** Running `pass <pass_path>`: either it could not be started, or it ran to
      completion with some exit status and standard output bytes. */
  datatype PassOutput = SpawnFailed(ioText: string) | Finished(status: int, stdout: seq<bv8>)

  /** The XDG base-directory search for `kimai/config.toml`. */
  datatype XdgLookup = XdgFailed(xdgText: string) | NotFound | Found(path: string)

  datatype Env = Env(
    readConfig: string -> ConfigSource,
    pass: string -> PassOutput,
    fromUtf8: seq<bv8> -> Result<string, string>,
    xdg: XdgLookup)

  const NoPasswordMessage := "No password give in config!"
  const NoConfigFileMessage := "config file not found!"

  /** The secret selection of `Config::from_path` once the file is parsed. */
  function FromConfigFile(f: ConfigFile, env: Env): (r: Result<Config, KimaiError>)
    ensures r.Ok? ==> r.value.host == f.host && r.value.user == f.user
    ensures r.Err? ==> (r.error.Config? && r.error.msg == NoPasswordMessage) || r.error.IO? || r.error.Utf8?
    ensures f.password.None? && f.passPath.Some? && env.pass(f.passPath.value).SpawnFailed? ==>
      r == Err(IO(env.pass(f.passPath.value).ioText))
    ensures r.Err? && r.error.IO? ==>
      f.password.None? && f.passPath.Some? && env.pass(f.passPath.value).SpawnFailed?
  {
    if f.password.Some? then
      Ok(Config.Config(f.host, f.user, f.password.value))
    else if f.passPath.Some? then
      match env.pass(f.passPath.value)
      case SpawnFailed(t) => Err(FromForeign(IoError(t)))
      case Finished(_, out) =>
        match env.fromUtf8(out)
        case Err(t) => Err(FromForeign(Utf8Error(t)))
        case Ok(text) => Ok(Config.Config(f.host, f.user, Trim(text)))
    else
      Err(KimaiError.Config(NoPasswordMessage))
  }

  /** `Config::from_path`: read, parse, then select the secret. */
  function FromPath(path: string, env: Env): (r: Result<Config, KimaiError>)
    ensures env.readConfig(path).ReadFailed? ==> r == Err(IO(env.readConfig(path).ioText))
    ensures env.readConfig(path).TomlFailed? ==> r == Err(Toml(env.readConfig(path).tomlText))
    ensures env.readConfig(path).Parsed? ==> r == FromConfigFile(env.readConfig(path).file, env)
  {
    match env.readConfig(path)
    case ReadFailed(t) => Err(FromForeign(IoError(t)))
    case TomlFailed(t) => Err(FromForeign(TomlError(t)))
    case Parsed(f) => FromConfigFile(f, env)
  }

  /** `Config::from_xdg`: the located file, or why there is none. */
  function FromXdg(env: Env): (r: Result<Config, KimaiError>)
    ensures env.xdg.XdgFailed? ==> r == Err(XdgBaseDirectories(env.xdg.xdgText))
    ensures env.xdg.NotFound? ==> r == Err(KimaiError.Config(NoConfigFileMessage))
  {
    match env.xdg
    case XdgFailed(t) => Err(FromForeign(XdgError(t)))
    case NotFound => Err(KimaiError.Config(NoConfigFileMessage))
    case Found(p) => FromPath(p, env)
  }

  /** `load_config`: an explicit path wins, otherwise the XDG location. */
  function LoadConfig(configPath: Option<string>, env: Env): (r: Result<Config, KimaiError>)
    ensures r.Err? && r.error.XdgBaseDirectories? ==> configPath.None?
    ensures configPath.Some? ==> r == FromPath(configPath.value, env)
    ensures configPath.None? ==> r == FromXdg(env)
  {
    match configPath
    case Some(p) => FromPath(p, env)
    case None => FromXdg(env)
  }

  /** A password in the file is used verbatim, whatever `pass_path` says and without running `pass`. */
  lemma PasswordWins(f: ConfigFile, env: Env, env': Env)
    requires f.password.Some?
    ensures FromConfigFile(f, env) == Ok(Config.Config(f.host, f.user, f.password.value))
    ensures FromConfigFile(f, env) == FromConfigFile(f, env')
  {
  }

  /** With only `pass_path`, `pass` is run on it and the secret is its trimmed
      output: free of surrounding whitespace, and a piece of the output with
      only whitespace around it. Undecodable output is a UTF-8 error. */
  lemma PassPathSecret(f: ConfigFile, env: Env)
    requires f.password.None? && f.passPath.Some?
    requires env.pass(f.passPath.value).Finished?
    ensures var out := env.pass(f.passPath.value).stdout;
      match env.fromUtf8(out)
      case Err(t) => FromConfigFile(f, env) == Err(Utf8(t))
      case Ok(text) =>
        FromConfigFile(f, env).Ok? &&
        var secret := FromConfigFile(f, env).value.password;
        secret == Trim(text) &&
        (|secret| > 0 ==> !IsWhitespace(secret[0]) && !IsWhitespace(secret[|secret| - 1])) &&
        exists i: nat, j: nat :: IsTrimmedSlice(text, i, j) && secret == text[i..j]
  {
  }

  /** Only a failure to start `pass` is an I/O error; the exit status is never
      looked at, so a failing lookup that prints nothing yields an empty secret. */
  lemma ExitStatusIgnored(f: ConfigFile, env: Env, status: int)
    requires f.password.None? && f.passPath.Some?
    requires env.pass(f.passPath.value) == Finished(status, [])
    requires env.fromUtf8([]) == Ok("")
    ensures FromConfigFile(f, env) == Ok(Config.Config(f.host, f.user, ""))
  {
    assert LeadingWhitespace("") == 0;
  }

  /** With neither `password` nor `pass_path` resolution fails with the configuration error. */
  lemma NoSecret(f: ConfigFile, env: Env)
    requires f.password.None? && f.passPath.None?
    ensures FromConfigFile(f, env) == Err(KimaiError.Config(NoPasswordMessage))
  {
  }

  /** An explicit path never consults the XDG lookup; without one, the path the
      lookup found is resolved exactly as if it had been given. */
  lemma LoadConfigDispatch(configPath: Option<string>, env: Env, xdg': XdgLookup)
    ensures configPath.Some? ==>
      LoadConfig(configPath, env) == LoadConfig(configPath, env.(xdg := xdg')) == FromPath(configPath.value, env)
    ensures configPath.None? && env.xdg.Found? ==>
      LoadConfig(configPath, env) == LoadConfig(Some(env.xdg.path), env)
  {
  }
}

=== FILE: dates.dfy ===
/** Date and duration logic: the `H:MM` rendering of a record's duration, the
    two-format parsing of a user-supplied begin time, and the default "now".
    Instants are (whole seconds, nanoseconds) pairs; the two text parsers, the
    local-zone resolution, today's date and the clock are supplied by the caller. */
module Dates {
  import opened Wrappers
  import opened Text
  import opened KimaiErrors

  const NanosPerSecond: nat := 1_000_000_000

  /** The largest number of seconds a `chrono::Duration` can hold (i64::MAX milliseconds). */
  const MaxDurationSeconds: nat := 9_223_372_036_854_775

  /** A wall-clock date and time without zone: seconds since 1970-01-01 00:00 local, plus nanoseconds. */
  datatype NaiveDateTime = NaiveDateTime(seconds: int, nanos: nat)

  /** A time of day without date. */
  datatype NaiveTime = NaiveTime(secondsOfDay: nat, nanos: nat)

  /** An instant in the local zone: seconds since the Unix epoch, nanoseconds, and the
      zone's offset from UTC in seconds at that instant. */
  datatype DateTime = DateTime(seconds: int, nanos: nat, offset: int)

  /** `DateTime::naive_local`: the wall-clock reading of an instant. */
  function NaiveLocal(d: DateTime): (r: NaiveDateTime)
    ensures r.seconds - d.seconds == d.offset && r.nanos == d.nanos
  {
    NaiveDateTime(d.seconds + d.offset, d.nanos)
  }

  /** `NaiveDate::and_time`: the given time on the day with the given number since the epoch. */
  function AndTime(day: int, t: NaiveTime): NaiveDateTime {
    NaiveDateTime(day * 86400 + t.secondsOfDay, t.nanos)
  }

  /** Division and remainder as Rust's `/` and `%` on signed integers: truncating toward zero. */
  function TruncDiv(a: int, b: int): (q: int)
    requires b > 0
    ensures a >= 0 ==> q == a / b
    ensures a < 0 ==> q == -((-a) / b) && q <= 0
  {
    if a >= 0 then a / b else -((-a) / b)
  }

  function TruncRem(a: int, b: int): (r: int)
    requires b > 0
    ensures -b < r < b
    ensures a >= 0 ==> r == a % b
    ensures a < 0 ==> r == -((-a) % b) && r <= 0
  {
    a - b * TruncDiv(a, b)
  }

  /** `format!("{:02}", m)`: at least two characters, zero-padded after the sign. */
  function Pad2(m: int): (r: string)
    ensures |r| >= 2
    ensures m < 0 ==> r[0] == '-' && r[1..] == NatToString(-m)
    ensures m >= 0 ==> IsDigits(r) && (|r| > 2 ==> r == NatToString(m))
  {
    if m < 0 then "-" + NatToString(-m)
    else if m < 10 then "0" + NatToString(m)
    else NatToString(m)
  }

  /** The duration column: `Duration::seconds(s)`, then whole hours, ":", and the
      minutes within the hour zero-padded to two places. */
  function FormatDuration(seconds: int): (r: string)
    requires -(MaxDurationSeconds as int) <= seconds <= MaxDurationSeconds
    ensures seconds >= 0 ==> r == NatToString(seconds / 3600) + ":" + Pad2((seconds / 60) % 60)
    ensures seconds < 0 ==> r == IntToString(-((-seconds) / 3600)) + ":" + Pad2(-(((-seconds) / 60) % 60))
  {
    var hours := TruncDiv(seconds, 3600);
    var minutes := TruncRem(TruncDiv(seconds, 60), 60);
    IntToString(hours) + ":" + Pad2(minutes)
  }

  /** The padded minutes field: exactly two digits that read back as the minutes. */
  lemma Pad2Digits(m: int)
    requires 0 <= m < 60
    ensures |Pad2(m)| == 2 && IsDigits(Pad2(m)) && ParseNat(Pad2(m)) == m
  {
    var ms := Pad2(m);
    var hi, lo := m / 10, m % 10;
    if m < 10 {
      assert DigitChar(0) == '0';
    } else {
      assert hi < 10 && NatToString(hi) == [DigitChar(hi)];
    }
    assert ms == [DigitChar(hi), DigitChar(lo)];
    assert ms[..1] == [DigitChar(hi)] && ms[..1][..0] == [];
    assert ParseNat(ms[..1]) == hi;
  }

  /** Two separator-free pieces glued with ":" split back into exactly those pieces. */
  lemma SplitAtColon(a: string, b: string)
    requires IsDigits(a) && IsDigits(b)
    ensures Split(a + ":" + b, ':') == [a, b]
  {
    forall i | 0 <= i < |a| ensures a[i] != ':' {
      assert IsDigit(a[i]);
    }
    forall i | 0 <= i < |b| ensures b[i] != ':' {
      assert IsDigit(b[i]);
    }
    assert a + ":" + b == a + ([':'] + b);
    SplitPrefix(a, [':'] + b, ':');
    assert ([':'] + b)[1..] == b;
    SplitPrefix(b, "", ':');
    assert a + "" == a && b + "" == b;
    assert Split([':'] + b, ':') == [""] + [b];
  }

  /** For a non-negative duration the text is the hour count (not capped at 24), ":",
      and exactly two digits of minutes in 00..59; reading both fields back recovers
      the duration up to its leftover seconds. */
  lemma DurationFields(seconds: int)
    requires 0 <= seconds <= MaxDurationSeconds
    ensures var parts := Split(FormatDuration(seconds), ':');
      |parts| == 2 &&
      parts[0] == NatToString(seconds / 3600) &&
      |parts[1]| == 2 && IsDigits(parts[1]) &&
      ParseNat(parts[0]) == seconds / 3600 &&
      ParseNat(parts[1]) == (seconds / 60) % 60 < 60 &&
      ParseNat(parts[0]) * 3600 + ParseNat(parts[1]) * 60 + seconds % 60 == seconds
  {
    var h, m := seconds / 3600, (seconds / 60) % 60;
    assert FormatDuration(seconds) == NatToString(h) + ":" + Pad2(m);
    Pad2Digits(m);
    SplitAtColon(NatToString(h), Pad2(m));
    ParseNatToString(h);
    DurationArithmetic(seconds);
  }

  lemma DurationArithmetic(seconds: nat)
    ensures (seconds / 3600) * 3600 + ((seconds / 60) % 60) * 60 + seconds % 60 == seconds
  {
    assert seconds == (seconds / 60) * 60 + seconds % 60;
    assert seconds / 60 == (seconds / 60 / 60) * 60 + (seconds / 60) % 60;
    assert seconds / 60 / 60 == seconds / 3600;
  }

  /** Worked example: ninety minutes. */
  lemma DurationExample5400()
    ensures FormatDuration(5400) == "1:30"
  {
    assert DigitChar(0) == '0' && DigitChar(1) == '1' && DigitChar(3) == '3';
    assert Pad2(30) == NatToString(3) + [DigitChar(0)];
  }

  /** Worked example: an hour, a minute and forty seconds. */
  lemma DurationExample3700()
    ensures FormatDuration(3700) == "1:01"
  {
    assert DigitChar(0) == '0' && DigitChar(1) == '1';
    assert Pad2(1) == "0" + [DigitChar(1)];
  }

  /** Worked example: a minute and a second. */
  lemma DurationExample61()
    ensures FormatDuration(61) == "0:01"
  {
    assert DigitChar(0) == '0' && DigitChar(1) == '1';
    assert Pad2(1) == "0" + [DigitChar(1)];
  }

  /** Worked example: hours are not capped at a day. */
  lemma DurationExample90000()
    ensures FormatDuration(90000) == "25:00"
  {
    assert DigitChar(0) == '0' && DigitChar(2) == '2' && DigitChar(5) == '5';
    assert IntToString(25) == NatToString(2) + [DigitChar(5)];
    assert Pad2(0) == "0" + [DigitChar(0)];
  }

  /** Negative durations keep Rust's truncating arithmetic: minus ninety seconds prints as "0:-1". */
  lemma NegativeDurationExample()
    ensures FormatDuration(-90) == "0:-1"
  {
  }

  /** A negative whole hour signs the hours field and leaves the minutes unsigned: "-1:00". */
  lemma NegativeHourExample()
    ensures FormatDuration(-3600) == "-1:00"
  {
  }

  /** The parsers and the local zone, as supplied to `str_to_datetime`:
      the "%Y-%m-%d %H:%M" parser, the "%H:%M" parser, today's local date
      (days since the epoch), and the resolution of a wall-clock reading to an
      instant (`None` when it is not exactly one instant, in a gap or an overlap). */
  datatype DateEnv = DateEnv(
    parseFull: string -> Result<NaiveDateTime, string>,
    parseTime: string -> Result<NaiveTime, string>,
    today: int,
    localize: NaiveDateTime -> Option<DateTime>)

  /** The source unwraps the zone resolution of whichever parse succeeds;
      a reading with no single instant panics. */
  predicate Resolvable(s: string, env: DateEnv) {
    match env.parseFull(s)
    case Ok(d) => env.localize(d).Some?
    case Err(_) =>
      match env.parseTime(s)
      case Ok(t) => env.localize(AndTime(env.today, t)).Some?
      case Err(_) => true
  }

  /** `str_to_datetime`: the full format first; only if that fails, the time on today's date. */
  function StrToDateTime(s: string, env: DateEnv): (r: Result<DateTime, KimaiError>)
    requires Resolvable(s, env)
    ensures r.Err? <==> env.parseFull(s).Err? && env.parseTime(s).Err?
    ensures r.Err? ==> r.error == ChronoParse(env.parseTime(s).error)
    ensures env.parseFull(s).Ok? ==> r == Ok(env.localize(env.parseFull(s).value).value)
    ensures env.parseFull(s).Err? && env.parseTime(s).Ok? ==>
      r == Ok(env.localize(AndTime(env.today, env.parseTime(s).value)).value)
  {
    match env.parseFull(s)
    case Ok(d) => Ok(env.localize(d).value)
    case Err(_) =>
      match env.parseTime(s)
      case Ok(t) => Ok(env.localize(AndTime(env.today, t)).value)
      case Err(e) => Err(FromForeign(ChronoError(e)))
  }

  /** A zone whose resolution gives back an instant that reads as the requested wall-clock time. */
  ghost predicate Faithful(env: DateEnv) {
    forall d :: env.localize(d).Some? ==> NaiveLocal(env.localize(d).value) == d
  }

  /** Whenever the full format parses, its result is taken: neither the time-only
      parser nor today's date matters, and the instant reads as the parsed date and time. */
  lemma FullFormatFirst(s: string, env: DateEnv, parseTime': string -> Result<NaiveTime, string>, today': int)
    requires env.parseFull(s).Ok? && Resolvable(s, env)
    ensures Resolvable(s, env.(parseTime := parseTime', today := today'))
    ensures StrToDateTime(s, env) == StrToDateTime(s, env.(parseTime := parseTime', today := today'))
    ensures Faithful(env) ==> NaiveLocal(StrToDateTime(s, env).value) == env.parseFull(s).value
  {
  }

  /** When only the time parses, the result reads as that time on today's date. */
  lemma TimeOnlyFallback(s: string, env: DateEnv)
    requires env.parseFull(s).Err? && env.parseTime(s).Ok? && Resolvable(s, env)
    requires Faithful(env)
    ensures StrToDateTime(s, env).Ok?
    ensures NaiveLocal(StrToDateTime(s, env).value) == AndTime(env.today, env.parseTime(s).value)
  {
  }

  /** The first parser's error is discarded: whatever it says, a double failure reports
      the time-only parser's error and nothing else. */
  lemma FirstErrorDiscarded(s: string, env: DateEnv, parseFull': string -> Result<NaiveDateTime, string>)
    requires env.parseFull(s).Err? && parseFull'(s).Err? && env.parseTime(s).Err?
    ensures Resolvable(s, env) && Resolvable(s, env.(parseFull := parseFull'))
    ensures StrToDateTime(s, env) == StrToDateTime(s, env.(parseFull := parseFull'))
    ensures Display(StrToDateTime(s, env).error) == "Chrono Parser Error: " + env.parseTime(s).error
  {
  }

  /** `now - Duration::nanoseconds(n)`: the instant `n` nanoseconds earlier, same zone offset. */
  function SubtractNanos(t: DateTime, n: int): (r: DateTime)
    ensures r.nanos < NanosPerSecond
    ensures r.seconds * NanosPerSecond + r.nanos == t.seconds * NanosPerSecond + t.nanos - n
    ensures r.offset == t.offset
  {
    var total := t.seconds * NanosPerSecond + t.nanos - n;
    DateTime(total / NanosPerSecond, total % NanosPerSecond, t.offset)
  }

  /** `get_datetime`: a given string is parsed; otherwise the clock's reading with its
      sub-second part dropped and its whole seconds kept. */
  method GetDateTime(datetimeStr: Option<string>, now: DateTime, env: DateEnv)
    returns (r: Result<DateTime, KimaiError>)
    requires datetimeStr.Some? ==> Resolvable(datetimeStr.value, env)
    requires now.nanos < NanosPerSecond
    ensures datetimeStr.Some? ==> r == StrToDateTime(datetimeStr.value, env)
    ensures datetimeStr.None? ==> r == Ok(DateTime(now.seconds, 0, now.offset))
  {
    match datetimeStr {
      case Some(s) =>
        r := StrToDateTime(s, env);
      case None =>
        var current := now;
        current := SubtractNanos(current, current.nanos);
        r := Ok(current);
    }
  }
}

=== FILE: domain.dfy ===
/** The entities the server returns and the one record the client sends. */
module Domain {
  import opened Wrappers
  import opened Text
  import opened Dates

  datatype Customer = Customer(id: nat, name: string, visible: bool, color: string)

  datatype Project = Project(id: nat, name: string, customer: nat, parentTitle: string,
                             visible: bool, color: Option<string>)

  datatype Activity = Activity(id: nat, name: string, project: Option<nat>,
                               parentTitle: Option<string>, visible: bool, color: Option<string>)

  /** A record with no `end` is still running; `duration` is the server's count of seconds. */
  datatype TimesheetRecord = TimesheetRecord(
    id: nat, description: Option<string>, begin: DateTime, end: Option<DateTime>,
    duration: int, project: nat, activity: nat, user: nat, tags: seq<string>)

  datatype Team = Team(id: nat, name: string)

  datatype User = User(
    id: nat, username: string, enabled: bool, roles: seq<string>, language: string,
    timezone: string, alias: Option<string>, title: Option<string>, avatar: Option<string>,
    teams: seq<Team>)

  /** The body POSTed to start a record: the begin time as a zone-less wall-clock
      reading and the tags as one comma-joined string. */
  datatype NewTimesheetRecord = NewTimesheetRecord(
    project: nat, activity: nat, begin: NaiveDateTime,
    description: Option<string>, tags: Option<string>)

  /** The record `begin_timesheet_record` builds from its arguments. */
  function NewRecord(project: nat, activity: nat, begin: DateTime,
                     description: Option<string>, tags: Option<seq<string>>): (r: NewTimesheetRecord)
    ensures r.project == project && r.activity == activity && r.description == description
    ensures r.begin == NaiveLocal(begin)
    ensures r.tags.Some? <==> tags.Some?
    ensures tags.Some? ==> r.tags == Some(Join(tags.value, ","))
  {
    NewTimesheetRecord(project, activity, NaiveLocal(begin), description,
                       match tags case Some(ts) => Some(Join(ts, ",")) case None => None)
  }

  /** Tags free of commas survive the joining: splitting the sent string on ","
      gives the tags back in order. */
  lemma TagsRoundTrip(project: nat, activity: nat, begin: DateTime,
                      description: Option<string>, tags: seq<string>)
    requires |tags| >= 1
    requires forall i :: 0 <= i < |tags| ==> ',' !in tags[i]
    ensures NewRecord(project, activity, begin, description, Some(tags)).tags == Some(Join(tags, ","))
    ensures Split(NewRecord(project, activity, begin, description, Some(tags)).tags.value, ',') == tags
  {
    assert "," == [','];
    SplitJoin(tags, ',');
  }

  /** The joining is not escaped: a tag containing a comma is indistinguishable from
      two tags, and no tags from one empty tag. */
  lemma TagsAmbiguous(project: nat, activity: nat, begin: DateTime, description: Option<string>)
    ensures NewRecord(project, activity, begin, description, Some(["a,b"])) ==
            NewRecord(project, activity, begin, description, Some(["a", "b"]))
    ensures NewRecord(project, activity, begin, description, Some([])) ==
            NewRecord(project, activity, begin, description, Some([""]))
  {
    assert Join(["a", "b"], ",") == "a" + "," + "b" == "a,b";
  }
}

=== FILE: errors.dfy ===
/** The client's single error type: a closed union with one variant per kind of
    failure, each carrying a message, its user-facing rendering and the
    conversions from the foreign errors the client meets. */
module KimaiErrors {

  datatype KimaiError =
    | XdgBaseDirectories(msg: string)
    | IO(msg: string)
    | Toml(msg: string)
    | Utf8(msg: string)
    | Reqwest(msg: string)
    | ChronoParse(msg: string)
    | Config(msg: string)
    | Api(msg: string)
    | Other(msg: string)

  /** The fixed label `Display` puts in front of the message. */
  function Prefix(e: KimaiError): (p: string)
    ensures 7 <= |p| <= 27
    ensures e.Other? <==> p == "Error: "
  {
    match e
    case XdgBaseDirectories(_) => "XDG BaseDirectories Error: "
    case IO(_) => "IO Error: "
    case Toml(_) => "TOML Error: "
    case Utf8(_) => "UTF-8 Error: "
    case Reqwest(_) => "Reqwest Error: "
    case ChronoParse(_) => "Chrono Parser Error: "
    case Config(_) => "Config Error: "
    case Api(_) => "API Error: "
    case Other(_) => "Error: "
  }

  /** The text the error prints as. */
  function Display(e: KimaiError): (s: string)
    ensures |s| == |Prefix(e)| + |e.msg|
    ensures s[..|Prefix(e)|] == Prefix(e) && s[|Prefix(e)|..] == e.msg
  {
    Prefix(e) + e.msg
  }

  /** Distinct kinds have labels that already differ in their first two characters. */
  lemma PrefixesDiffer(a: KimaiError, b: KimaiError)
    ensures |Prefix(a)| >= 2 && |Prefix(b)| >= 2
    ensures Prefix(a)[..2] == Prefix(b)[..2] ==> Prefix(a) == Prefix(b) && SameKind(a, b)
  {
    if Prefix(a)[..2] == Prefix(b)[..2] {
      assert Prefix(a)[0] == Prefix(b)[0] && Prefix(a)[1] == Prefix(b)[1];
    }
  }

  predicate SameKind(a: KimaiError, b: KimaiError) {
    a.(msg := "") == b.(msg := "")
  }

  /** No two different errors print the same: the rendering determines kind and message. */
  lemma DisplayInjective(a: KimaiError, b: KimaiError)
    requires Display(a) == Display(b)
    ensures a == b
  {
    PrefixesDiffer(a, b);
    var pa, pb := Prefix(a), Prefix(b);
    assert pa[..2] == Display(a)[..2] && pb[..2] == Display(b)[..2];
    assert a.msg == Display(a)[|pa|..];
    assert b.msg == Display(b)[|pb|..];
  }

  /** The errors of the libraries the client calls, reduced to their rendered text. */
  datatype ForeignError =
    | XdgError(text: string)
    | IoError(text: string)
    | TomlError(text: string)
    | Utf8Error(text: string)
    | ReqwestError(text: string)
    | ChronoError(text: string)

  /** The `From` conversions: each foreign error becomes its own variant, message unchanged. */
  function FromForeign(f: ForeignError): (e: KimaiError)
    ensures e.msg == f.text
    ensures !e.Config? && !e.Api? && !e.Other?
    ensures f.XdgError? ==> e.XdgBaseDirectories?
    ensures f.IoError? ==> e.IO?
    ensures f.TomlError? ==> e.Toml?
    ensures f.Utf8Error? ==> e.Utf8?
    ensures f.ReqwestError? ==> e.Reqwest?
    ensures f.ChronoError? ==> e.ChronoParse?
  {
    match f
    case XdgError(t) => XdgBaseDirectories(t)
    case IoError(t) => IO(t)
    case TomlError(t) => Toml(t)
    case Utf8Error(t) => Utf8(t)
    case ReqwestError(t) => Reqwest(t)
    case ChronoError(t) => ChronoParse(t)
  }

  /** Different foreign errors never convert to the same error. */
  lemma FromForeignInjective(f: ForeignError, g: ForeignError)
    requires FromForeign(f) == FromForeign(g)
    ensures f == g
  {
  }
}

=== FILE: query.dfy ===
/** Query-parameter encoding: the value shapes a parameter can take, their
    rendering as text, and the `query!` builder that turns a list of optional
    named parameters into a key -> text map, or into "no parameters" at all. */
module Query {
  import opened Wrappers
  import opened Text

  /** The value shapes the client passes as query parameters:
      `usize`, `&str` / `String`, and `Vec<usize>`. */
  datatype QueryValue = Scalar(n: nat) | Str(s: string) | Ids(ids: seq<nat>)

  /** Each id rendered in decimal, in order. */
  function Decimals(ids: seq<nat>): (r: seq<string>)
    ensures |r| == |ids|
    ensures forall i :: 0 <= i < |ids| ==> r[i] == NatToString(ids[i])
    decreases |ids|
  {
    if |ids| == 0 then [] else [NatToString(ids[0])] + Decimals(ids[1..])
  }

  /** `QueryValue::process`: scalars in decimal, strings as they are,
      id lists as decimals joined by ",". */
  function Process(v: QueryValue): (r: string)
    ensures v.Scalar? ==> IsCanonical(r)
    ensures v.Str? ==> r == v.s
    ensures v.Ids? && v.ids == [] ==> r == ""
    ensures v.Ids? && |v.ids| == 1 ==> r == NatToString(v.ids[0])
  {
    match v
    case Scalar(n) => NatToString(n)
    case Str(s) => s
    case Ids(ids) => Join(Decimals(ids), ",")
  }

  /** The receiving side's reading of an id list: split on "," and parse each piece. */
  function ParseIds(s: string): (r: Option<seq<nat>>)
  {
    var pieces := Split(s, ',');
    if forall i :: 0 <= i < |pieces| ==> IsCanonical(pieces[i]) then
      Some(seq(|pieces|, i requires 0 <= i < |pieces| => ParseNat(pieces[i])))
    else None
  }

  /** A non-empty id list survives encoding: parsing the text gives the list back in order. */
  lemma IdsRoundTrip(ids: seq<nat>)
    requires |ids| >= 1
    ensures ParseIds(Process(Ids(ids))) == Some(ids)
  {
    var parts := Decimals(ids);
    forall i | 0 <= i < |parts| ensures ',' !in parts[i] {
      assert IsDigits(parts[i]);
    }
    SplitJoin(parts, ',');
    assert "," == [','];
    var pieces := Split(Process(Ids(ids)), ',');
    assert pieces == parts;
    forall i | 0 <= i < |ids| ensures ParseNat(parts[i]) == ids[i] {
      ParseNatToString(ids[i]);
    }
    assert seq(|pieces|, i requires 0 <= i < |pieces| => ParseNat(pieces[i])) == ids;
  }

  /** An empty id list encodes to the empty string (it is still a parameter). */
  lemma EmptyIds()
    ensures Process(Ids([])) == ""
  {
  }

  /** A scalar survives encoding. */
  lemma ScalarRoundTrip(n: nat)
    ensures IsCanonical(Process(Scalar(n))) && ParseNat(Process(Scalar(n))) == n
  {
    ParseNatToString(n);
  }

  /** One named parameter of a `query!` invocation; `None` means "not given". */
  type Param = (string, Option<QueryValue>)

  /** The map after inserting, in order, every parameter that is given;
      a later insertion under the same key replaces an earlier one. */
  function Inserted(params: seq<Param>): (r: map<string, string>)
    ensures |r| <= |params|
    decreases |params|
  {
    if |params| == 0 then map[]
    else
      var m := Inserted(params[..|params| - 1]);
      var (k, v) := params[|params| - 1];
      if v.Some? then m[k := Process(v.value)] else m
  }

  /** What `query!` yields: `None` when nothing was inserted, otherwise the map. */
  function Query(params: seq<Param>): (r: Option<map<string, string>>)
    ensures r.None? <==> Inserted(params) == map[]
    ensures r.Some? ==> r.value == Inserted(params) && |r.value| > 0
  {
    var m := Inserted(params);
    if m == map[] then None else Some(m)
  }

  predicate Given(params: seq<Param>, k: string) {
    exists i :: 0 <= i < |params| && params[i].0 == k && params[i].1.Some?
  }

  predicate DistinctKeys(params: seq<Param>) {
    forall i, j :: 0 <= i < j < |params| ==> params[i].0 != params[j].0
  }

  /** The keys of the built map are exactly the keys of the given parameters. */
  lemma {:induction false} InsertedKeys(params: seq<Param>)
    ensures forall k :: k in Inserted(params) <==> Given(params, k)
    decreases |params|
  {
    if |params| > 0 {
      var init := params[..|params| - 1];
      InsertedKeys(init);
      forall k ensures Given(params, k) <==> Given(init, k) || (params[|params| - 1].0 == k && params[|params| - 1].1.Some?) {
        if Given(init, k) {
          var i :| 0 <= i < |init| && init[i].0 == k && init[i].1.Some?;
          assert params[i] == init[i];
        }
        if Given(params, k) {
          var i :| 0 <= i < |params| && params[i].0 == k && params[i].1.Some?;
          if i < |init| { assert init[i] == params[i]; }
        }
      }
    }
  }

  /** A given parameter that no later given parameter overrides is mapped to its rendering. */
  lemma {:induction false} InsertedValue(params: seq<Param>, i: nat)
    requires i < |params| && params[i].1.Some?
    requires forall j :: i < j < |params| ==> params[j].0 != params[i].0 || params[j].1.None?
    ensures params[i].0 in Inserted(params)
    ensures Inserted(params)[params[i].0] == Process(params[i].1.value)
    decreases |params|
  {
    var init := params[..|params| - 1];
    if i < |params| - 1 {
      assert init[i] == params[i];
      InsertedValue(init, i);
    }
  }

  /** The result is "no parameters" exactly when no parameter is given, and a map is never empty. */
  lemma QueryNone(params: seq<Param>)
    ensures Query(params).None? <==> forall i :: 0 <= i < |params| ==> params[i].1.None?
    ensures Query(params).Some? ==> |Query(params).value| > 0
  {
    InsertedKeys(params);
    if forall i :: 0 <= i < |params| ==> params[i].1.None? {
      forall k ensures k !in Inserted(params) {
      }
    } else {
      var i :| 0 <= i < |params| && params[i].1.Some?;
      assert params[i].0 in Inserted(params);
    }
  }

  /** With distinct keys (as at every call site), each given parameter is in the map
      under its own key with its rendering, and nothing else is. */
  lemma QueryDistinct(params: seq<Param>)
    requires DistinctKeys(params)
    ensures Query(params).Some? ==>
      (forall k :: k in Query(params).value <==> Given(params, k)) &&
      (forall i :: 0 <= i < |params| && params[i].1.Some? ==>
         Query(params).value[params[i].0] == Process(params[i].1.value))
  {
    InsertedKeys(params);
    forall i | 0 <= i < |params| && params[i].1.Some?
      ensures Inserted(params)[params[i].0] == Process(params[i].1.value)
    {
      InsertedValue(params, i);
    }
  }

  /** The `query!` macro: a fresh map, a conditional insert per parameter, then
      "no parameters" if the map stayed empty. */
  method BuildQuery(params: seq<Param>) returns (q: Option<map<string, string>>)
    ensures q == Query(params)
    ensures q.None? <==> forall i :: 0 <= i < |params| ==> params[i].1.None?
    ensures q.Some? ==> |q.value| > 0 && forall k :: k in q.value <==> Given(params, k)
  {
    var queries: map<string, string> := map[];
    var i := 0;
    while i < |params|
      invariant 0 <= i <= |params|
      invariant queries == Inserted(params[..i])
    {
      assert params[..i + 1][..i] == params[..i];
      if params[i].1.Some? {
        queries := queries[params[i].0 := Process(params[i].1.value)];
      }
      i := i + 1;
    }
    assert params[..|params|] == params;
    QueryNone(params);
    InsertedKeys(params);
    if queries == map[] {
      q := None;
    } else {
      q := Some(queries);
    }
  }

  function OptStr(o: Option<string>): Option<QueryValue> {
    match o case Some(s) => Some(Str(s)) case None => None
  }

  function OptIds(o: Option<seq<nat>>): Option<QueryValue> {
    match o case Some(ids) => Some(Ids(ids)) case None => None
  }

  function OptScalar(o: Option<nat>): Option<QueryValue> {
    match o case Some(n) => Some(Scalar(n)) case None => None
  }

  /** The parameter list of `get_customers`. */
  function CustomerParams(term: Option<string>): seq<Param> {
    [("term", OptStr(term))]
  }

  /** The parameter list of `get_projects`. */
  function ProjectParams(customers: Option<seq<nat>>, term: Option<string>): seq<Param> {
    [("customers", OptIds(customers)), ("term", OptStr(term))]
  }

  /** The parameter list of `get_activities`. */
  function ActivityParams(projects: Option<seq<nat>>, term: Option<string>): seq<Param> {
    [("projects", OptIds(projects)), ("term", OptStr(term))]
  }

  /** The parameter list of `get_timesheet`. */
  function TimesheetParams(user: Option<nat>, customers: Option<seq<nat>>,
                           projects: Option<seq<nat>>, activities: Option<seq<nat>>): seq<Param> {
    [("user", OptScalar(user)), ("customers", OptIds(customers)),
     ("projects", OptIds(projects)), ("activities", OptIds(activities))]
  }

  /** A key is given by a list exactly when one of the list's entries gives it. */
  lemma GivenByEntries(params: seq<Param>, k: string)
    requires |params| > 0
    ensures Given(params, k) <==> (params[0].0 == k && params[0].1.Some?) || Given(params[1..], k)
  {
    if Given(params[1..], k) {
      var i :| 0 <= i < |params[1..]| && params[1..][i].0 == k && params[1..][i].1.Some?;
      assert params[i + 1] == params[1..][i];
    }
    if Given(params, k) && !(params[0].0 == k && params[0].1.Some?) {
      var i :| 0 <= i < |params| && params[i].0 == k && params[i].1.Some?;
      assert params[1..][i - 1] == params[i];
    }
  }

  /** `get_customers` sends `term` when it is given, and nothing otherwise. */
  lemma CustomerQuery(term: Option<string>)
    ensures Query(CustomerParams(term)) == if term.Some? then Some(map["term" := term.value]) else None
  {
    var params := CustomerParams(term);
    QueryNone(params);
    QueryDistinct(params);
    if term.Some? {
      forall k ensures Given(params, k) <==> k == "term" {
        GivenByEntries(params, k);
        assert params[1..] == [];
      }
      assert params[0].1.value == Str(term.value);
      assert Query(params).value["term"] == term.value;
      var m := Query(params).value;
      assert m.Keys == {"term"};
      assert m == map["term" := term.value];
    }
  }

  /** The parameters of a two-entry list (the project and activity queries). */
  lemma TwoEntryQuery(k1: string, v1: Option<QueryValue>, k2: string, v2: Option<QueryValue>)
    requires k1 != k2
    ensures var q := Query([(k1, v1), (k2, v2)]);
      (q.Some? <==> v1.Some? || v2.Some?) &&
      (q.Some? ==> forall k :: k in q.value <==> (k == k1 && v1.Some?) || (k == k2 && v2.Some?)) &&
      (v1.Some? ==> q.Some? && q.value[k1] == Process(v1.value)) &&
      (v2.Some? ==> q.Some? && q.value[k2] == Process(v2.value))
  {
    var params := [(k1, v1), (k2, v2)];
    QueryNone(params);
    QueryDistinct(params);
    forall k ensures Given(params, k) <==> (k == k1 && v1.Some?) || (k == k2 && v2.Some?) {
      GivenByEntries(params, k);
      GivenByEntries(params[1..], k);
      assert params[1..][1..] == [];
    }
  }

  /** `get_projects` sends `customers` (the ids joined by ",") and `term`, each only when given. */
  lemma ProjectQuery(customers: Option<seq<nat>>, term: Option<string>)
    ensures var q := Query(ProjectParams(customers, term));
      (q.Some? <==> customers.Some? || term.Some?) &&
      (q.Some? ==> forall k :: k in q.value <==> (k == "customers" && customers.Some?) || (k == "term" && term.Some?)) &&
      (customers.Some? ==> q.Some? && q.value["customers"] == Process(Ids(customers.value))) &&
      (term.Some? ==> q.Some? && q.value["term"] == term.value)
  {
    TwoEntryQuery("customers", OptIds(customers), "term", OptStr(term));
  }

  /** `get_activities` sends `projects` (the ids joined by ",") and `term`, each only when given. */
  lemma ActivityQuery(projects: Option<seq<nat>>, term: Option<string>)
    ensures var q := Query(ActivityParams(projects, term));
      (q.Some? <==> projects.Some? || term.Some?) &&
      (q.Some? ==> forall k :: k in q.value <==> (k == "projects" && projects.Some?) || (k == "term" && term.Some?)) &&
      (projects.Some? ==> q.Some? && q.value["projects"] == Process(Ids(projects.value))) &&
      (term.Some? ==> q.Some? && q.value["term"] == term.value)
  {
    TwoEntryQuery("projects", OptIds(projects), "term", OptStr(term));
  }

  /** `get_timesheet` sends `user` in decimal and the three id lists joined by ",",
      each only when given. */
  lemma TimesheetQuery(user: Option<nat>, customers: Option<seq<nat>>,
                       projects: Option<seq<nat>>, activities: Option<seq<nat>>)
    ensures var q := Query(TimesheetParams(user, customers, projects, activities));
      (q.Some? <==> user.Some? || customers.Some? || projects.Some? || activities.Some?) &&
      (q.Some? ==> forall k :: k in q.value <==>
        (k == "user" && user.Some?) || (k == "customers" && customers.Some?) ||
        (k == "projects" && projects.Some?) || (k == "activities" && activities.Some?)) &&
      (user.Some? ==> q.Some? && q.value["user"] == Process(Scalar(user.value))) &&
      (customers.Some? ==> q.Some? && q.value["customers"] == Process(Ids(customers.value))) &&
      (projects.Some? ==> q.Some? && q.value["projects"] == Process(Ids(projects.value))) &&
      (activities.Some? ==> q.Some? && q.value["activities"] == Process(Ids(activities.value)))
  {
    var params := TimesheetParams(user, customers, projects, activities);
    QueryNone(params);
    QueryDistinct(params);
    assert params[0].1 == OptScalar(user) && params[1].1 == OptIds(customers);
    assert params[2].1 == OptIds(projects) && params[3].1 == OptIds(activities);
    forall k ensures Given(params, k) <==>
        (k == "user" && user.Some?) || (k == "customers" && customers.Some?) ||
        (k == "projects" && projects.Some?) || (k == "activities" && activities.Some?) {
      GivenByEntries(params, k);
      GivenByEntries(params[1..], k);
      GivenByEntries(params[2..], k);
      GivenByEntries(params[3..], k);
      assert params[1..][1..] == params[2..] && params[2..][1..] == params[3..];
      assert params[3..][1..] == [];
    }
  }
}

=== FILE: text.dfy ===
/** Text helpers the client relies on: decimal rendering of unsigned integers
    (`usize::to_string`), `join` / `split` on a separator, and `str::trim`. */
module Text {

  predicate IsDigit(c: char) {
    '0' <= c <= '9'
  }

  predicate IsDigits(s: string) {
    forall i :: 0 <= i < |s| ==> IsDigit(s[i])
  }

  /** A canonical decimal numeral: non-empty, no leading zero unless it is "0". */
  predicate IsCanonical(s: string) {
    |s| >= 1 && IsDigits(s) && (s[0] == '0' ==> |s| == 1)
  }

  function DigitChar(d: nat): (c: char)
    requires d < 10
    ensures IsDigit(c)
  {
    (48 + d) as char
  }

  function DigitValue(c: char): (d: nat)
    requires IsDigit(c)
    ensures d < 10
  {
    c as int - 48
  }

  /** Decimal rendering of an unsigned integer, most significant digit first. */
  function NatToString(n: nat): (s: string)
    ensures IsCanonical(s)
    decreases n
  {
    if n < 10 then [DigitChar(n)] else NatToString(n / 10) + [DigitChar(n % 10)]
  }

  /** The value of a string of decimal digits (the empty string reads as 0). */
  function ParseNat(s: string): nat
    requires IsDigits(s)
    decreases |s|
  {
    if s == [] then 0 else ParseNat(s[..|s| - 1]) * 10 + DigitValue(s[|s| - 1])
  }

  /** Signed decimal rendering, as Rust's `Display` for a signed integer. */
  function IntToString(i: int): (s: string)
    ensures i >= 0 ==> IsCanonical(s)
    ensures i < 0 ==> |s| >= 2 && s[0] == '-' && IsCanonical(s[1..]) && s[1] != '0'
    ensures i >= 0 ==> ParseNat(s) == i
    ensures i < 0 ==> ParseNat(s[1..]) == -i
  {
    ParseNatToString(if i < 0 then -i else i);
    if i < 0 then "-" + NatToString(-i) else NatToString(i)
  }

  lemma {:induction false} ParseNatToString(n: nat)
    ensures ParseNat(NatToString(n)) == n
    decreases n
  {
    var s := NatToString(n);
    if n >= 10 {
      ParseNatToString(n / 10);
      assert s[..|s| - 1] == NatToString(n / 10);
    }
  }

  lemma {:induction false} ParseNatPositive(s: string)
    requires IsCanonical(s) && s[0] != '0'
    ensures ParseNat(s) >= 1
    decreases |s|
  {
    if |s| > 1 {
      ParseNatPositive(s[..|s| - 1]);
    }
  }

  /** Decimal rendering and parsing are inverse on canonical numerals. */
  lemma {:induction false} NatToStringParse(s: string)
    requires IsCanonical(s)
    ensures NatToString(ParseNat(s)) == s
    decreases |s|
  {
    if |s| > 1 {
      var init := s[..|s| - 1];
      ParseNatPositive(init);
      NatToStringParse(init);
      var n := ParseNat(s);
      assert n / 10 == ParseNat(init) && n % 10 == DigitValue(s[|s| - 1]);
      assert s == init + [s[|s| - 1]];
    }
  }

  /** `parts.join(sep)`: the pieces in order with `sep` between neighbours. */
  function Join(parts: seq<string>, sep: string): (r: string)
    ensures |parts| == 0 ==> r == ""
    ensures |parts| >= 1 ==> |r| >= |parts[0]| + (|parts| - 1) * |sep| && r[..|parts[0]|] == parts[0]
    decreases |parts|
  {
    if |parts| == 0 then ""
    else if |parts| == 1 then parts[0]
    else parts[0] + sep + Join(parts[1..], sep)
  }

  /** `s.split(c)`: the maximal runs between occurrences of `c`; always at least one piece. */
  function Split(s: string, c: char): (parts: seq<string>)
    ensures |parts| >= 1
    decreases |s|
  {
    if |s| == 0 then [""]
    else if s[0] == c then [""] + Split(s[1..], c)
    else
      var rest := Split(s[1..], c);
      [[s[0]] + rest[0]] + rest[1..]
  }

  /** A prefix free of the separator is glued onto the first piece. */
  lemma {:induction false} SplitPrefix(a: string, rest: string, c: char)
    requires c !in a
    ensures Split(a + rest, c) == [a + Split(rest, c)[0]] + Split(rest, c)[1..]
    decreases |a|
  {
    if |a| > 0 {
      SplitPrefix(a[1..], rest, c);
      assert (a + rest)[1..] == a[1..] + rest;
      assert [a[0]] + (a[1..] + Split(rest, c)[0]) == a + Split(rest, c)[0];
    } else {
      var r := Split(rest, c);
      assert a + rest == rest && a + r[0] == r[0];
      assert r == [r[0]] + r[1..];
    }
  }

  /** Splitting what was joined with a separator no piece contains gives the pieces back. */
  lemma {:induction false} SplitJoin(parts: seq<string>, c: char)
    requires |parts| >= 1
    requires forall i :: 0 <= i < |parts| ==> c !in parts[i]
    ensures Split(Join(parts, [c]), c) == parts
    decreases |parts|
  {
    if |parts| == 1 {
      SplitPrefix(parts[0], "", c);
      assert parts[0] + "" == parts[0];
    } else {
      var tail := Join(parts[1..], [c]);
      SplitJoin(parts[1..], c);
      assert parts[0] + [c] + tail == parts[0] + ([c] + tail);
      SplitPrefix(parts[0], [c] + tail, c);
      assert ([c] + tail)[1..] == tail;
      assert Split([c] + tail, c) == [""] + Split(tail, c);
      assert parts[0] + "" == parts[0];
      assert parts == [parts[0]] + parts[1..];
    }
  }

  /** Joining the pieces of a split with the separator restores the string. */
  lemma {:induction false} JoinSplit(s: string, c: char)
    ensures Join(Split(s, c), [c]) == s
    decreases |s|
  {
    if |s| > 0 {
      JoinSplit(s[1..], c);
      var rest := Split(s[1..], c);
      if s[0] == c {
        assert Split(s, c)[1..] == rest;
      } else {
        var parts := Split(s, c);
        assert parts[1..] == rest[1..];
        if |rest| == 1 {
          assert Join(parts, [c]) == [s[0]] + rest[0];
        } else {
          assert rest == [rest[0]] + rest[1..];
          assert Join(rest, [c]) == rest[0] + [c] + Join(rest[1..], [c]);
        }
      }
    }
  }

  /** Rust's `char::is_whitespace`: the Unicode White_Space property. */
  predicate IsWhitespace(c: char) {
    var n := c as int;
    (0x09 <= n <= 0x0D) || n == 0x20 || n == 0x85 || n == 0xA0 || n == 0x1680 ||
    (0x2000 <= n <= 0x200A) || n == 0x2028 || n == 0x2029 || n == 0x202F ||
    n == 0x205F || n == 0x3000
  }

  predicate AllWhitespace(s: string) {
    forall i :: 0 <= i < |s| ==> IsWhitespace(s[i])
  }

  /** Length of the leading whitespace run. */
  function LeadingWhitespace(s: string): (i: nat)
    ensures i <= |s| && AllWhitespace(s[..i])
    ensures i < |s| ==> !IsWhitespace(s[i])
    decreases |s|
  {
    if |s| > 0 && IsWhitespace(s[0]) then 1 + LeadingWhitespace(s[1..]) else 0
  }

  /** Where the trailing whitespace run starts. */
  function TrailingStart(s: string): (j: nat)
    ensures j <= |s| && AllWhitespace(s[j..])
    ensures j > 0 ==> !IsWhitespace(s[j - 1])
    decreases |s|
  {
    if |s| > 0 && IsWhitespace(s[|s| - 1]) then TrailingStart(s[..|s| - 1]) else |s|
  }

  /** `r` is `s[i..j]` with nothing but whitespace cut off on either side. */
  predicate IsTrimmedSlice(s: string, i: nat, j: nat) {
    i <= j <= |s| && AllWhitespace(s[..i]) && AllWhitespace(s[j..])
  }

  /** `str::trim`: the string without its leading and trailing whitespace. */
  function Trim(s: string): (r: string)
    ensures exists i: nat, j: nat :: IsTrimmedSlice(s, i, j) && r == s[i..j]
    ensures |r| > 0 ==> !IsWhitespace(r[0]) && !IsWhitespace(r[|r| - 1])
  {
    var i := LeadingWhitespace(s);
    var t := TrailingStart(s[i..]);
    var j := i + t;
    assert s[i..][t..] == s[j..];
    assert IsTrimmedSlice(s, i, j);
    assert i < j ==> s[i..j][0] == s[i] && s[i..j][t - 1] == s[i..][t - 1];
    s[i..j]
  }

  /** Trimming twice is trimming once. */
  lemma TrimIdempotent(s: string)
    ensures Trim(Trim(s)) == Trim(s)
  {
    var r := Trim(s);
    assert LeadingWhitespace(r) == 0;
    assert TrailingStart(r) == |r|;
  }
}

=== FILE: wrappers.dfy ===
/** Option and Result, the two failure-carrying shapes the client uses
    (Rust's `Option<T>` and `Result<T, E>`). */
module Wrappers {

  datatype Option<+T> = None | Some(value: T)

  datatype Result<+T, +E> = Ok(value: T) | Err(error: E)
}
